=== FILE: README.md ===
# Talking avatar: loading, speech activity and per-frame pose, in Dafny

This project models the decision logic of a React/Three.js talking-avatar
page:

- **Asset classification** (`src/hooks/useAvatarModel.ts`). When the asset
  loads, one visit over the scene tree turns shadows on for every mesh and
  records as the jaw target every bone whose lower-cased name contains
  "jaw", "mouth" or "mandible". Each match overwrites the last one. The hook
  then sets up a clip mixer when the asset has clips and sets `modelLoaded`.
  Its error callback only logs. Its cleanup detaches the model and stops the
  mixer's actions.
- **Speech activity** (`src/contexts/SpeechContext.tsx`, `src/components/Speech.tsx`).
  Each `speak` cancels what is queued and queues a new utterance. That
  utterance's `onstart` handler sets `isSpeaking`, starts a 100 ms interval
  that draws a mouth openness in [0, 0.8), and only then installs the
  `onend`/`onerror` handlers. Those clear the interval and reset the state.
  The provider keeps `isSpeaking`/`mouthOpenness` as state. The button
  component reports the same events to three callbacks and disables its
  button while speaking.
- **Per-frame pose** (`src/hooks/useAvatarAnimation.ts`, `src/components/TalkingHead.tsx`).
  Each frame does the following:
  - sets the jaw bone's rotation to `0.3 × openness` when a jaw exists and the model has loaded;
  - advances the mixer by the clock delta;
  - renders once and requests the next frame.

  In the procedural head, the jaw mesh sits at `-1.2 - 0.3 × openness`. A
  5000 ms interval blinks both eyelids together when its random draw exceeds
  0.2, and a 150 ms timeout hides them again.

Timers, `requestAnimationFrame`, `Math.random()` and the speech backend are
events with parameters. A tick carries its random draw, and a frame carries
the handle the browser returns for the next one. The mouth openness is a
`real`.

Modules:
- `Wrappers`: `Option` and `Result`.
- `TextMatch`: ASCII `toLowerCase` and `includes`.
- `SceneGraph`: the node tree, its pre-order, the shadow step and the jaw step.
- `AvatarModel`: the model-loading hook.
- `SpeechLifecycle`: the utterance lifecycle shared by both speech files.
- `SpeechContext`: the speech provider.
- `SpeechComponent`: the speech button component.
- `AvatarAnimation`: the animation hook.
- `TalkingHead`: the procedural head.

## Model

| member | source | states |
|---|---|---|
| TextMatch.Includes | src/hooks/useAvatarModel.ts:80-82 | `includes` is true exactly when the needle occurs at some position of the string |
| TextMatch.LowerForgetsCase | src/hooks/useAvatarModel.ts:79 | lower-casing a name and lower-casing its upper-cased spelling give the same string |
| SceneGraph.ShadeMeshesLabels | src/hooks/useAvatarModel.ts:60-66 | `ShadeMeshes` (the shadow step over the tree) keeps the visit order; each visited node's label becomes its shaded label (a mesh's two flags set, other nodes unchanged) |
| SceneGraph.ShadowStep | src/hooks/useAvatarModel.ts:60-75 | after the visit every mesh casts and receives shadows; non-mesh nodes keep their flags; no kind or name changes, so the empty head/face/eye/brow branch has no effect |
| SceneGraph.LastJaw | src/hooks/useAvatarModel.ts:78-83 | reference choice: `None` exactly when no visited node is a matching bone; otherwise a matching bone after which no visited node matches |
| SceneGraph.OverwriteKeepsLast | src/hooks/useAvatarModel.ts:83 | the scan in which each match overwrites the target ends on the last match, or keeps its starting target when nothing matches |
| SceneGraph.FindJawIsPreOrderScan | src/hooks/useAvatarModel.ts:60-87 | the visit of the tree (node first, then its children's subtrees) is the overwriting scan over the pre-order |
| SceneGraph.JawIsLastMatch | src/hooks/useAvatarModel.ts:77-86 | `FindJaw` (the jaw step of the visit) ends on `LastJaw` of the pre-order when some bone matches, and on the starting target otherwise; so no matching bone leaves the target as it was, and any match sets it to the matching bone visited last |
| SceneGraph.ShadingKeepsJaw | src/hooks/useAvatarModel.ts:60-86 | the shadow step changes neither whether a jaw bone is found nor its name, so doing the two steps in one visit or in two agrees |
| SceneGraph.MatchIgnoresCase | src/hooks/useAvatarModel.ts:79-82 | under `IsJawName` (lower-case, then look for "jaw", "mouth" or "mandible"), "JawRoot" and "L_MANDIBLE" are jaw names and "Head" is not |
| SceneGraph.UpperCaseSameMatch | src/hooks/useAvatarModel.ts:79 | a name and its upper-cased spelling are both jaw names (`IsJawName`) or neither |
| AvatarModel.PlayAll | src/hooks/useAvatarModel.ts:98-104 | after playing each clip, the playing set is the old one plus every clip of the list; the mixer clock is untouched |
| AvatarModel.SetUpMixer | src/hooks/useAvatarModel.ts:93-105 | an asset with at least one clip gets a fresh mixer playing exactly its clips; without clips the mixer ref is left as it was |
| AvatarModel.OnLoaded | src/hooks/useAvatarModel.ts:49-108 | on success the shaded model is attached, the jaw ref is the visit's result from the previous ref, `modelLoaded` is true, and a mixer exists iff there are clips or one existed |
| AvatarModel.Complete | src/hooks/useAvatarModel.ts:112-125 | a load error changes nothing, because the fallback only logs; a success always sets `modelLoaded` and attaches a model |
| AvatarModel.Mount | src/hooks/useAvatarModel.ts:14-24 | `modelLoaded` ends true iff scene objects exist and the load succeeded; otherwise every ref stays null |
| AvatarModel.Cleanup | src/hooks/useAvatarModel.ts:26-37 | cleanup clears the model ref and stops every mixer action; the jaw ref, the mixer ref and `modelLoaded` are not reset |
| AvatarModel.CleanupIdempotent | src/hooks/useAvatarModel.ts:26-37 | a second cleanup changes nothing more |
| AvatarModel.MountJaw | src/hooks/useAvatarModel.ts:77-86 | after a successful mount the jaw ref is exactly `LastJaw` of the shaded tree's pre-order: null when no bone matches, otherwise the matching bone visited last |
| AvatarModel.MountMixer | src/hooks/useAvatarModel.ts:93-104 | a successful mount has a mixer iff the asset has clips, and it plays exactly those clips |
| SpeechLifecycle.PickVoice | src/contexts/SpeechContext.tsx:24-28 | the voice chosen is the first whose language contains "en"; none is chosen iff no voice qualifies |
| SpeechLifecycle.React | src/contexts/SpeechContext.tsx:31-51 | a deliverable start runs `onstart`; a deliverable tick samples `draw × 0.8`, which lies in [0, 0.8); a deliverable end or error runs the stop handler exactly when `onstart` installed it, and runs nothing before that start; anything else runs nothing |
| SpeechLifecycle.Advance | src/contexts/SpeechContext.tsx:31-51 | a start installs the handlers and a live interval; a handled end or error marks the utterance done with no live interval; a tick or an undeliverable event changes no utterance; only the named utterance changes |
| SpeechLifecycle.Speak | src/contexts/SpeechContext.tsx:19-54 | every utterance not yet done is cancelled and nothing else about it changes; the new utterance is queued last with the chosen voice and no handlers |
| SpeechLifecycle.SpeakCalls | src/contexts/SpeechContext.tsx:17-57 | with a backend, `speak` calls cancel first and then enqueues the text; without one it only logs the error |
| SpeechContext.SpeakStep | src/contexts/SpeechContext.tsx:16-58 | `speak` never touches `isSpeaking` or the openness; without a backend the state is unchanged and only the error is logged; with one, every unfinished utterance is cancelled and then the given text with the chosen voice is queued (cancel call first, then enqueue) |
| SpeechContext.NotifyStep | src/contexts/SpeechContext.tsx:31-51 | the utterances change exactly as the lifecycle step says, so a stop clears only its own utterance's interval; an event that runs no handler leaves `isSpeaking` and the openness alone; on start `isSpeaking` is true and the interval is live; a tick sets the openness to the sampled value, in [0, 0.8); a handled end or error sets `isSpeaking` false and the openness to exactly 0 and clears the interval; an end or error before start changes neither |
| SpeechContext.Run | src/contexts/SpeechContext.tsx:13-51 | every state reached by any sequence of inputs keeps the openness in [0, 0.8) and the utterances well formed |
| SpeechContext.ReachableOpenness | src/contexts/SpeechContext.tsx:13-14 | the initial state (not speaking, openness 0) is valid, so every reachable openness lies in [0, 0.8) |
| SpeechContext.UnsupportedIsInert | src/contexts/SpeechContext.tsx:17 | without a backend no sequence of inputs changes the provider's state |
| SpeechContext.NoTickAfterStop | src/contexts/SpeechContext.tsx:40-50 | once an utterance is done, whatever follows, its interval never ticks again |
| SpeechContext.UseSpeech | src/contexts/SpeechContext.tsx:67-72 | the hook returns the provider's value inside a provider and throws the fixed message outside one |
| SpeechComponent.Notify | src/components/Speech.tsx:33-54 | the utterances change exactly as the lifecycle step says, so a stop clears only its own utterance's interval; on start `isSpeaking` is true and `onSpeechStart` is called once; a tick passes the sampled volume, in [0, 0.8), to `onSpeechData`; a handled end or error sets `isSpeaking` false and calls `onSpeechEnd`; otherwise no callback fires |
| SpeechComponent.EndLikeError | src/components/Speech.tsx:43-53 | an end and an error of the same utterance have identical effects |
| SpeechComponent.Click | src/components/Speech.tsx:63-72 | the button is disabled (`ButtonDisabled`) exactly while speaking, and a click on it then does nothing; otherwise it speaks "Hi there!" (cancelling every unfinished utterance, then queuing the greeting) or only logs without a backend; `isSpeaking` is unchanged either way |
| SpeechComponent.UnsupportedIsSilent | src/components/Speech.tsx:19 | without a backend no sequence of inputs fires a callback or changes `isSpeaking` |
| SpeechComponent.NoDataAfterEnd | src/components/Speech.tsx:43-53 | after an utterance's end or error, whatever follows, its interval never reaches `onSpeechData` |
| AvatarAnimation.JawRotation | src/hooks/useAvatarAnimation.ts:48 | jaw rotation is 0 at openness 0 and positive for positive openness |
| AvatarAnimation.JawRotationMonotone | src/hooks/useAvatarAnimation.ts:48 | jaw rotation is non-decreasing in openness |
| AvatarAnimation.Animate | src/hooks/useAvatarAnimation.ts:44-73 | the jaw is posed to 0.3 × openness only when a jaw bone exists and the model has loaded, else left alone; the mixer advances by exactly the delta; one render iff scene objects exist; the next frame is requested and recorded |
| AvatarAnimation.OnFrame | src/hooks/useAvatarAnimation.ts:72 | a frame that is not pending does nothing; a pending one is replaced by the frame it requests |
| AvatarAnimation.RunFramesSummary | src/hooks/useAvatarAnimation.ts:44-73 | over any run of frames exactly one frame stays pending, renders grow by one per frame with scene objects, and the mixer advances by the sum of the deltas |
| AvatarAnimation.EffectRun | src/hooks/useAvatarAnimation.ts:26-36 | without scene objects the effect does nothing; with them it adds one light and starts a loop with exactly one frame pending |
| AvatarAnimation.CleanupAsWritten | src/hooks/useAvatarAnimation.ts:37-41 | the hook's cleanup cancels the recorded frame but leaves the light count unchanged |
| AvatarAnimation.Cleanup | src/hooks/useAvatarAnimation.ts:37-41 | corrected cleanup: it cancels the only pending frame of a running loop and removes the light its run added |
| AvatarAnimation.LightsAccumulate | src/hooks/useAvatarAnimation.ts:26-42 | as written, mounting and then re-running once when the model loads leaves two front lights |
| AvatarAnimation.LightsGrowPerRun | src/hooks/useAvatarAnimation.ts:26-42 | as written, every re-run with scene objects adds one more light |
| AvatarAnimation.LightsStayBounded | src/hooks/useAvatarAnimation.ts:26-42 | with the corrected cleanup, any number of re-runs leaves at most one light |
| AvatarAnimation.TeardownReleasesAll | src/hooks/useAvatarAnimation.ts:37-41 | the corrected final cleanup leaves no frame pending and no light |
| TalkingHead.JawY | src/components/TalkingHead.tsx:204 | the jaw sits at -1.2 at openness 0 and strictly lower for positive openness |
| TalkingHead.JawYStrictlyDecreasing | src/components/TalkingHead.tsx:204 | a wider mouth puts the jaw strictly lower |
| TalkingHead.Animate | src/components/TalkingHead.tsx:200-221 | a present jaw is placed from the openness ref; exactly one render; the next frame is requested and recorded; eyelids untouched |
| TalkingHead.Mount | src/components/TalkingHead.tsx:22-47 | without a canvas nothing happens; otherwise both eyelids start hidden, the jaw is placed, the first requested frame is pending and its handle recorded, and the blink interval, resize listener and canvas are in place |
| TalkingHead.SyncOpenness | src/components/TalkingHead.tsx:61-64 | the openness ref takes the provider's latest value and nothing else changes |
| TalkingHead.Blink | src/components/TalkingHead.tsx:184-197 | a blink is a no-op if either eyelid is absent; otherwise both are shown and one hide is scheduled |
| TalkingHead.BlinkTimer | src/components/TalkingHead.tsx:35-37 | the interval blinks only while installed and only when its draw exceeds 0.2 |
| TalkingHead.HideLids | src/components/TalkingHead.tsx:192-196 | a scheduled hide hides both eyelids when both exist |
| TalkingHead.OnFrame | src/components/TalkingHead.tsx:219-220 | a pending frame renders once, leaves the pending set and is replaced by the requested frame, whose handle is recorded; any other does nothing |
| TalkingHead.FramesStayRecorded | src/components/TalkingHead.tsx:200-221 | under any sequence of inputs at most the recorded frame is pending, and no pending handle is 0 |
| TalkingHead.TeardownStopsLoop | src/components/TalkingHead.tsx:52-54 | after mounting and any sequence of inputs, teardown leaves no frame callback pending |
| TalkingHead.Teardown | src/components/TalkingHead.tsx:49-58 | teardown removes the resize listener, clears the blink interval, cancels the recorded frame and detaches the canvas; a scheduled hide stays scheduled |
| TalkingHead.TeardownIdempotent | src/components/TalkingHead.tsx:49-58 | in the model, where detaching always succeeds, a second teardown changes nothing; the source's cleanup runs once per mount |
| TalkingHead.LidsStayTogether | src/components/TalkingHead.tsx:184-197 | under any sequence of frames, blinks, hides, syncs and teardowns the two eyelids always share the same visibility |
| TalkingHead.MountedLids | src/components/TalkingHead.tsx:132-157 | a freshly mounted head has both eyelids hidden, and they stay paired from then on |
| TalkingHead.JawFollowsProvider | src/components/TalkingHead.tsx:63 | after syncing a valid provider's openness and drawing a frame, the jaw sits at -1.2 - 0.3 × openness, within (-1.44, -1.2] |

## Left out

- Head sway (`Math.sin` of wall-clock time in both animate functions) is floating-point trigonometry on the clock. It does not affect the modelled state.
- The model's scale, position and rotation and the light's position are fixed transforms with no decision in them.
- Scene, camera, renderer and material construction (`src/utils/threeUtils.ts`, `initScene`, the geometry in `createHead`) are rendering setup.
- The resize handler is rendering setup. The model keeps only whether its listener is installed.
- Material assignment by mesh name: the branch is empty in the code. `SceneGraph.ShadowStep` shows the visit changes nothing else.
- Progress logging and every `console` call are not modelled, except the unsupported-backend log, which appears as a backend call.
- GLTF parsing, the speech backend, `setInterval`/`setTimeout`/`requestAnimationFrame` and `Math.random` are not modelled inside. They are events; the model delivers a tick only with a draw in [0, 1).
- Time is not modelled. The timer periods (100 ms mouth interval, 5000 ms blink interval, 150 ms eyelid hold) are named constants. The model orders timer firings as events and does not count elapsed time.
- Voice choice is modelled. Loading the voice list (`getVoices`) is an input.
- TextMatch.Includes: `toLowerCase` is modelled on the ASCII letters only; JavaScript lower-cases all of Unicode.
- The page (`src/pages/Index.tsx`) only calls `speak`.
- Smoothing of jaw motion, geometric decay of openness, retry passes and multi-format fallback chains, morph-target discovery and first-match-wins bone selection are not implemented by this code.
- The load callbacks are asynchronous. A load finishing after cleanup is not modelled; `AvatarModel.Mount` runs the load to completion inside the effect.
- The backend delivers `onstart` at most once per utterance, only while the utterance is queued and not cancelled. It delivers end or error at most once. A cleared interval never fires. Events outside these rules are treated as not happening.
- In `TalkingHead` the model renders on every frame: the scene, camera and renderer refs are always set by the mount before the first frame.
- TalkingHead.TeardownIdempotent: idempotence holds of the model only. React runs each cleanup closure once, so the source never tears down twice; a second call of the source cleanup with the canvas ref still set would throw at the `removeChild` on TalkingHead.tsx line 56, because the renderer's element is no longer a child.
- TalkingHead.Teardown: always detaches the canvas; the guard on the renderer, its DOM element and the canvas ref (TalkingHead.tsx line 55) is dropped, so the case where React has already cleared the canvas ref is not modelled.

## Findings

| source | as written | input that shows it | evidently intended | confidence | as-written member | corrected member |
|---|---|---|---|---|---|---|
| src/hooks/useAvatarAnimation.ts:29-42 | each effect run adds a new front light, the effect re-runs whenever `modelLoaded` changes, and the cleanup never removes the light | mount with scene objects, then the model finishes loading: two identical front lights, double the intended front lighting | the cleanup removes the light its run added, so at most one front light exists | medium, not executed | AvatarAnimation.LightsAccumulate | AvatarAnimation.LightsStayBounded |

=== FILE: AvatarAnimation.dfy ===
/**
 * The animation hook: its effect adds a front light and starts the frame
 * loop; each frame poses the jaw bone from the mouth openness, advances the
 * clip mixer by the clock's delta, renders once and requests the next frame.
 * `requestAnimationFrame` is an input here: each frame names the handle the
 * browser returns for the next one.
 */
module AvatarAnimation {
  import opened Wrappers
  import opened AvatarModel

  /** Radians of jaw rotation per unit of mouth openness. */
  const JawScale: real := 0.3

  /** A handle returned by `requestAnimationFrame`, which is never 0. */
  type FrameHandle = x: nat | x > 0 witness 1

  /**
   * The hook's view of the world: the jaw bone's `rotation.x` (present when
   * the jaw ref is set), the mixer, how many renders happened, the last
   * frame handle recorded (0 before any), the frame callbacks pending with
   * the browser, the front lights this hook has added to the scene, and
   * whether the current effect run added one.
   */
  datatype Loop = Loop(jawRotation: Option<real>, mixer: Option<Mixer>, renders: nat, frameId: nat, pending: set<nat>, lights: nat, lightAdded: bool)

  /** What a frame reads: `modelLoaded`, the openness ref, whether scene objects exist, and the clock's delta in seconds. */
  datatype FrameInput = FrameInput(modelLoaded: bool, openness: real, hasScene: bool, delta: real)

  /** The jaw rotation for a given openness. */
  function JawRotation(openness: real): (r: real)
    ensures openness == 0.0 ==> r == 0.0
    ensures openness > 0.0 ==> r > 0.0
  {
    openness * JawScale
  }

  /** The jaw opens further the wider the mouth. */
  lemma JawRotationMonotone(a: real, b: real)
    requires a <= b
    ensures JawRotation(a) <= JawRotation(b)
  {
  }

  /**
   * One call of `animate`: the jaw is posed only when a jaw bone exists and
   * the model has loaded; the mixer, if any, advances by exactly the delta;
   * one render happens when scene objects exist; the next frame is requested
   * and its handle recorded.
   */
  function Animate(s: Loop, input: FrameInput, next: FrameHandle): (r: Loop)
    ensures s.jawRotation.Some? && input.modelLoaded ==> r.jawRotation == Some(input.openness * 0.3)
    ensures s.jawRotation.None? || !input.modelLoaded ==> r.jawRotation == s.jawRotation
    ensures r.mixer.Some? <==> s.mixer.Some?
    ensures r.mixer.Some? ==> r.mixer.value.time == s.mixer.value.time + input.delta
                              && r.mixer.value.playing == s.mixer.value.playing
    ensures r.renders == s.renders + (if input.hasScene then 1 else 0)
    ensures r.frameId == next && r.pending == s.pending + {next}
    ensures r.lights == s.lights && r.lightAdded == s.lightAdded
  {
    var jaw := if s.jawRotation.Some? && input.modelLoaded then Some(JawRotation(input.openness)) else s.jawRotation;
    var mixer := match s.mixer
      case Some(m) => Some(m.(time := m.time + input.delta))
      case None => None;
    var renders := if input.hasScene then s.renders + 1 else s.renders;
    Loop(jaw, mixer, renders, next, s.pending + {next}, s.lights, s.lightAdded)
  }

  /** The browser running a pending frame callback: it is taken off the pending set and `animate` runs. */
  function OnFrame(s: Loop, id: nat, input: FrameInput, next: FrameHandle): (r: Loop)
    ensures id !in s.pending ==> r == s
    ensures id in s.pending ==> r.pending == s.pending - {id} + {next}
  {
    if id in s.pending then Animate(s.(pending := s.pending - {id}), input, next) else s
  }

  /** The loop is running with exactly one frame pending, the one whose handle is recorded. */
  predicate Looping(s: Loop)
  {
    s.frameId > 0 && s.pending == {s.frameId}
  }

  /** A frame firing once: the handle it carries and the input it reads. */
  datatype Frame = Frame(input: FrameInput, next: FrameHandle)

  function TotalDelta(frames: seq<Frame>): real
  {
    if |frames| == 0 then 0.0 else frames[0].input.delta + TotalDelta(frames[1..])
  }

  function Rendering(frames: seq<Frame>): nat
  {
    if |frames| == 0 then 0 else (if frames[0].input.hasScene then 1 else 0) + Rendering(frames[1..])
  }

  /** The loop running frame after frame: each time the one pending callback fires. */
  function RunFrames(s: Loop, frames: seq<Frame>): Loop
    decreases |frames|
  {
    if |frames| == 0 then s
    else RunFrames(OnFrame(s, s.frameId, frames[0].input, frames[0].next), frames[1..])
  }

  /**
   * Over any number of frames the loop keeps exactly one frame pending, does
   * one render per frame that has scene objects, and advances the mixer by
   * the sum of the clock deltas.
   */
  lemma {:induction false} RunFramesSummary(s: Loop, frames: seq<Frame>)
    requires Looping(s)
    ensures Looping(RunFrames(s, frames))
    ensures RunFrames(s, frames).renders == s.renders + Rendering(frames)
    ensures RunFrames(s, frames).mixer.Some? <==> s.mixer.Some?
    ensures s.mixer.Some? ==> RunFrames(s, frames).mixer.value.time == s.mixer.value.time + TotalDelta(frames)
    decreases |frames|
  {
    if |frames| > 0 {
      var s1 := OnFrame(s, s.frameId, frames[0].input, frames[0].next);
      assert s.pending - {s.frameId} == {};
      assert Looping(s1);
      RunFramesSummary(s1, frames[1..]);
    }
  }

  // ---------------------------------------------------------------------
  // The effect, as written and corrected
  // ---------------------------------------------------------------------

  /**
   * The effect body: without scene objects it returns at once; otherwise it
   * adds a front light and calls `animate` directly.
   */
  function EffectRun(s: Loop, input: FrameInput, next: FrameHandle): (r: Loop)
    ensures !input.hasScene ==> r == s
    ensures input.hasScene ==> r.lights == s.lights + 1 && r.lightAdded && r.renders == s.renders + 1
    ensures input.hasScene && s.pending == {} ==> Looping(r)
  {
    if !input.hasScene then s
    else Animate(s.(lights := s.lights + 1, lightAdded := true), input, next)
  }

  /** The cleanup as the hook writes it: it cancels the recorded frame (when one was recorded) and nothing else. */
  function CleanupAsWritten(s: Loop): (r: Loop)
    ensures s.frameId != 0 ==> s.frameId !in r.pending
    ensures r.lights == s.lights
  {
    if s.frameId != 0 then s.(pending := s.pending - {s.frameId}) else s
  }

  /**
   * The cleanup as intended: it cancels the recorded frame and also removes
   * the light its run added.
   */
  function Cleanup(s: Loop): (r: Loop)
    ensures Looping(s) ==> r.pending == {}
    ensures !r.lightAdded
    ensures s.lightAdded && s.lights > 0 ==> r.lights == s.lights - 1
    ensures !s.lightAdded ==> r.lights == s.lights
  {
    var cancelled := if s.frameId != 0 then s.(pending := s.pending - {s.frameId}) else s;
    if s.lightAdded && s.lights > 0 then cancelled.(lights := s.lights - 1, lightAdded := false)
    else cancelled.(lightAdded := false)
  }

  /** A change of `sceneObjects` or `modelLoaded`: the old run is cleaned up and the effect runs again. */
  function RerunAsWritten(s: Loop, input: FrameInput, next: FrameHandle): Loop
  {
    EffectRun(CleanupAsWritten(s), input, next)
  }

  function Rerun(s: Loop, input: FrameInput, next: FrameHandle): Loop
  {
    EffectRun(Cleanup(s), input, next)
  }

  /** Nothing added, no frame requested, no jaw bone, no mixer. */
  const Idle := Loop(None, None, 0, 0, {}, 0, false)

  /**
   * As written, the light is never removed: mounting with scene objects and
   * then re-running once when the model finishes loading leaves two front
   * lights in the scene.
   */
  lemma LightsAccumulate()
    ensures RerunAsWritten(EffectRun(Idle, FrameInput(false, 0.0, true, 0.0), 1), FrameInput(true, 0.0, true, 0.0), 2).lights == 2
  {
  }

  /** As written, every re-run with scene objects adds one more light. */
  lemma {:induction false} LightsGrowPerRun(s: Loop, inputs: seq<FrameInput>, next: FrameHandle)
    requires forall i :: 0 <= i < |inputs| ==> inputs[i].hasScene
    ensures RerunsAsWritten(s, inputs, next).lights == s.lights + |inputs|
    decreases |inputs|
  {
    if |inputs| > 0 {
      LightsGrowPerRun(RerunAsWritten(s, inputs[0], next), inputs[1..], next);
    }
  }

  function RerunsAsWritten(s: Loop, inputs: seq<FrameInput>, next: FrameHandle): Loop
    decreases |inputs|
  {
    if |inputs| == 0 then s else RerunsAsWritten(RerunAsWritten(s, inputs[0], next), inputs[1..], next)
  }

  function Reruns(s: Loop, inputs: seq<FrameInput>, next: FrameHandle): Loop
    decreases |inputs|
  {
    if |inputs| == 0 then s else Reruns(Rerun(s, inputs[0], next), inputs[1..], next)
  }

  /** The hook owns one light exactly while a run that added it is active. */
  predicate OwnsOneLight(s: Loop)
  {
    s.lights == (if s.lightAdded then 1 else 0)
  }

  /**
   * With the corrected cleanup, however many times the effect re-runs, the
   * scene holds at most the one light of the current run.
   */
  lemma {:induction false} LightsStayBounded(s: Loop, inputs: seq<FrameInput>, next: FrameHandle)
    requires OwnsOneLight(s)
    ensures OwnsOneLight(Reruns(s, inputs, next))
    ensures Reruns(s, inputs, next).lights <= 1
    decreases |inputs|
  {
    if |inputs| > 0 {
      LightsStayBounded(Rerun(s, inputs[0], next), inputs[1..], next);
    }
  }

  /** The final cleanup leaves no frame pending and no light behind. */
  lemma TeardownReleasesAll(s: Loop)
    requires Looping(s) && OwnsOneLight(s)
    ensures Cleanup(s).pending == {} && Cleanup(s).lights == 0
  {
  }
}

=== FILE: AvatarModel.dfy ===
/**
 * The model-loading hook: what the success callback does with a loaded
 * asset (shadow flags, jaw bone, clip mixer, `modelLoaded`), what the error
 * callback does (its fallback only logs), and the effect's cleanup.
 */
module AvatarModel {
  import opened Wrappers
  import opened SceneGraph

  /** An animation clip shipped with the asset. */
  datatype Clip = Clip(name: string)

  /**
   * An animation mixer bound to the model: the clips whose actions are
   * playing, and the mixer's own clock in seconds.
   */
  datatype Mixer = Mixer(playing: set<Clip>, time: real)

  /** What the loader hands to the callbacks: the asset, or a load error. */
  datatype LoadOutcome = Loaded(scene: Node, animations: seq<Clip>) | LoadFailed(reason: string)

  /**
   * The hook's refs and state: the model ref (set exactly while the model
   * is attached to the scene), the mixer ref, the jaw-bone ref and
   * `modelLoaded`.
   */
  datatype AvatarState = AvatarState(model: Option<Node>, mixer: Option<Mixer>, jaw: Option<Node>, modelLoaded: bool)

  /** All refs null, nothing in the scene, not loaded. */
  const Initial := AvatarState(None, None, None, false)

  /** `clipAction(clip).play()` for each clip in turn. */
  function PlayAll(m: Mixer, clips: seq<Clip>): (r: Mixer)
    ensures forall c :: c in r.playing <==> c in m.playing || c in clips
    ensures r.time == m.time
    decreases |clips|
  {
    if |clips| == 0 then m
    else PlayAll(m.(playing := m.playing + {clips[0]}), clips[1..])
  }

  /**
   * The mixer ref after the success callback: a fresh mixer playing every
   * clip when the asset has at least one clip, otherwise the ref as it was.
   */
  function SetUpMixer(current: Option<Mixer>, clips: seq<Clip>): (r: Option<Mixer>)
    ensures |clips| > 0 ==> r.Some? && r.value.time == 0.0 && forall c :: c in r.value.playing <==> c in clips
    ensures |clips| == 0 ==> r == current
  {
    if |clips| > 0 then Some(PlayAll(Mixer({}, 0.0), clips)) else current
  }

  /**
   * The success callback: the visit shades every mesh and records the last
   * matching bone, the model is added to the scene, the mixer is set up and
   * `modelLoaded` becomes true.
   */
  function OnLoaded(st: AvatarState, root: Node, clips: seq<Clip>): (r: AvatarState)
    ensures r.model == Some(ShadeMeshes(root)) && r.modelLoaded
    ensures r.jaw == FindJaw(ShadeMeshes(root), st.jaw)
    ensures r.mixer.Some? <==> |clips| > 0 || st.mixer.Some?
  {
    var model := ShadeMeshes(root);
    AvatarState(Some(model), SetUpMixer(st.mixer, clips), FindJaw(model, st.jaw), true)
  }

  /** The load finishing: on error the fallback only logs, so nothing changes. */
  function Complete(st: AvatarState, outcome: LoadOutcome): (r: AvatarState)
    ensures outcome.LoadFailed? ==> r == st
    ensures outcome.Loaded? ==> r.modelLoaded && r.model.Some?
  {
    match outcome
    case Loaded(root, clips) => OnLoaded(st, root, clips)
    case LoadFailed(_) => st
  }

  /**
   * The hook from mounting to the end of the load: without scene objects the
   * effect returns at once; otherwise one load is started and completes.
   */
  function Mount(hasScene: bool, outcome: LoadOutcome): (r: AvatarState)
    ensures r.modelLoaded <==> hasScene && outcome.Loaded?
    ensures !r.modelLoaded ==> r == Initial
  {
    if hasScene then Complete(Initial, outcome) else Initial
  }

  /**
   * The effect's cleanup: the model leaves the scene and its ref is cleared,
   * and every action of the mixer is stopped. The jaw ref, the mixer ref and
   * `modelLoaded` are not reset.
   */
  function Cleanup(st: AvatarState): (r: AvatarState)
    ensures r.model.None?
    ensures r.mixer.Some? <==> st.mixer.Some?
    ensures r.mixer.Some? ==> r.mixer.value.playing == {} && r.mixer.value.time == st.mixer.value.time
    ensures r.jaw == st.jaw && r.modelLoaded == st.modelLoaded
  {
    var detached := if st.model.Some? then st.(model := None) else st;
    match detached.mixer
    case Some(m) => detached.(mixer := Some(m.(playing := {})))
    case None => detached
  }

  /** Running the cleanup a second time changes nothing more. */
  lemma CleanupIdempotent(st: AvatarState)
    ensures Cleanup(Cleanup(st)) == Cleanup(st)
  {
  }

  /**
   * A successful mount with no matching bone leaves the jaw ref null, and
   * with one it holds the last matching bone of the visit.
   */
  lemma MountJaw(root: Node, clips: seq<Clip>)
    ensures Mount(true, Loaded(root, clips)).jaw == LastJaw(PreOrder(ShadeMeshes(root)))
    ensures var st := Mount(true, Loaded(root, clips));
      && ((forall i :: 0 <= i < |PreOrder(root)| ==> !IsJawBone(PreOrder(root)[i])) ==> st.jaw.None?)
      && (st.jaw.Some? ==> exists i :: IsLastMatchAt(PreOrder(ShadeMeshes(root)), i) && PreOrder(ShadeMeshes(root))[i] == st.jaw.value)
  {
    var model := ShadeMeshes(root);
    JawIsLastMatch(model, None);
    FindJawIsPreOrderScan(model, None);
    OverwriteKeepsLast(PreOrder(model), None);
    ShadowStep(root);
    var a := PreOrder(root);
    var b := PreOrder(model);
    if forall i :: 0 <= i < |a| ==> !IsJawBone(a[i]) {
      assert forall i :: 0 <= i < |b| ==> !IsJawBone(b[i]) by {
        forall i | 0 <= i < |b| ensures !IsJawBone(b[i]) {
          assert !IsJawBone(a[i]);
        }
      }
    }
  }

  /** A mounted asset with clips gets a mixer playing exactly those clips; one without clips gets none. */
  lemma MountMixer(root: Node, clips: seq<Clip>)
    ensures Mount(true, Loaded(root, clips)).mixer.Some? <==> |clips| > 0
    ensures |clips| > 0 ==> forall c :: c in Mount(true, Loaded(root, clips)).mixer.value.playing <==> c in clips
  {
  }
}

=== FILE: SceneGraph.dfy ===
/**
 * The scene tree of a loaded avatar asset and the one visit the load
 * callback makes over it (`model.traverse`): every mesh gets both shadow
 * flags, and every bone whose lower-cased name contains "jaw", "mouth" or
 * "mandible" overwrites the jaw target.
 */
module SceneGraph {
  import opened Wrappers
  import opened TextMatch

  /** The node classes the visit distinguishes (`instanceof THREE.Mesh` / `THREE.Bone`). */
  datatype NodeKind = Mesh | Bone | Other

  datatype Node = Node(kind: NodeKind, name: string, castShadow: bool, receiveShadow: bool, children: seq<Node>)

  /** What the visit can see of a single node, without its subtree. */
  datatype Label = Label(kind: NodeKind, name: string, castShadow: bool, receiveShadow: bool)

  function LabelOf(n: Node): Label
  {
    Label(n.kind, n.name, n.castShadow, n.receiveShadow)
  }

  /** The order `traverse` visits nodes in: the node itself, then each child's subtree in turn. */
  function PreOrder(n: Node): seq<Node>
    decreases n, 1
  {
    [n] + PreOrderAll(n.children)
  }

  function PreOrderAll(ns: seq<Node>): seq<Node>
    decreases ns, 0
  {
    if |ns| == 0 then [] else PreOrder(ns[0]) + PreOrderAll(ns[1..])
  }

  function Labels(s: seq<Node>): (r: seq<Label>)
    ensures |r| == |s|
    ensures forall i :: 0 <= i < |s| ==> r[i] == LabelOf(s[i])
  {
    seq(|s|, i requires 0 <= i < |s| => LabelOf(s[i]))
  }

  // ---------------------------------------------------------------------
  // Shadow flags
  // ---------------------------------------------------------------------

  /** The label a node has after the visit: a mesh casts and receives shadows, anything else is left alone. */
  function Shaded(l: Label): Label
  {
    if l.kind == Mesh then l.(castShadow := true, receiveShadow := true) else l
  }

  /** The visit's shadow step applied to every node of the tree. */
  function ShadeMeshes(n: Node): Node
    decreases n, 1
  {
    var kids := ShadeAll(n.children);
    if n.kind == Mesh then Node(Mesh, n.name, true, true, kids)
    else n.(children := kids)
  }

  function ShadeAll(ns: seq<Node>): (r: seq<Node>)
    ensures |r| == |ns|
    decreases ns, 0
  {
    if |ns| == 0 then [] else [ShadeMeshes(ns[0])] + ShadeAll(ns[1..])
  }

  /** Labels of a pre-order visit, each with the shadow step applied. */
  function ShadedLabels(ls: seq<Label>): (r: seq<Label>)
    ensures |r| == |ls|
    ensures forall i :: 0 <= i < |ls| ==> r[i] == Shaded(ls[i])
  {
    seq(|ls|, i requires 0 <= i < |ls| => Shaded(ls[i]))
  }

  /**
   * Shading the tree visits the same nodes in the same order, and the label
   * of each visited node is exactly the shaded label of the original one.
   */
  lemma {:induction false} ShadeMeshesLabels(n: Node)
    ensures Labels(PreOrder(ShadeMeshes(n))) == ShadedLabels(Labels(PreOrder(n)))
    decreases n, 1
  {
    ShadeAllLabels(n.children);
    var m := ShadeMeshes(n);
    assert m.children == ShadeAll(n.children);
    assert LabelOf(m) == Shaded(LabelOf(n));
    LabelsAppend([m], PreOrderAll(m.children));
    LabelsAppend([n], PreOrderAll(n.children));
    ShadedLabelsAppend([LabelOf(n)], Labels(PreOrderAll(n.children)));
  }

  lemma LabelsAppend(a: seq<Node>, b: seq<Node>)
    ensures Labels(a + b) == Labels(a) + Labels(b)
  {
  }

  lemma ShadedLabelsAppend(a: seq<Label>, b: seq<Label>)
    ensures ShadedLabels(a + b) == ShadedLabels(a) + ShadedLabels(b)
  {
  }

  lemma {:induction false} ShadeAllLabels(ns: seq<Node>)
    ensures Labels(PreOrderAll(ShadeAll(ns))) == ShadedLabels(Labels(PreOrderAll(ns)))
    decreases ns, 0
  {
    if |ns| > 0 {
      ShadeMeshesLabels(ns[0]);
      ShadeAllLabels(ns[1..]);
      var sh := ShadeAll(ns);
      assert sh[0] == ShadeMeshes(ns[0]) && sh[1..] == ShadeAll(ns[1..]);
      LabelsAppend(PreOrder(sh[0]), PreOrderAll(sh[1..]));
      LabelsAppend(PreOrder(ns[0]), PreOrderAll(ns[1..]));
      ShadedLabelsAppend(Labels(PreOrder(ns[0])), Labels(PreOrderAll(ns[1..])));
    }
  }

  /**
   * After the shadow step every mesh node casts and receives shadows, every
   * other node keeps its flags, and no node changes kind or name. The
   * head/face/eye/brow name test on meshes has an empty branch, so it adds
   * nothing to this.
   */
  lemma ShadowStep(root: Node)
    ensures |PreOrder(ShadeMeshes(root))| == |PreOrder(root)|
    ensures forall i :: 0 <= i < |PreOrder(root)| ==>
      var before := PreOrder(root)[i];
      var after := PreOrder(ShadeMeshes(root))[i];
      && after.kind == before.kind
      && after.name == before.name
      && (before.kind == Mesh ==> after.castShadow && after.receiveShadow)
      && (before.kind != Mesh ==> after.castShadow == before.castShadow && after.receiveShadow == before.receiveShadow)
  {
    ShadeMeshesLabels(root);
    var before := PreOrder(root);
    var after := PreOrder(ShadeMeshes(root));
    assert |Labels(after)| == |Labels(before)|;
    forall i | 0 <= i < |before|
      ensures LabelOf(after[i]) == Shaded(LabelOf(before[i]))
    {
      assert Labels(after)[i] == ShadedLabels(Labels(before))[i];
    }
  }

  // ---------------------------------------------------------------------
  // Jaw bone
  // ---------------------------------------------------------------------

  /** The name test of the visit: lower-cased, then one of three substrings. */
  predicate IsJawName(name: string)
  {
    var lower := ToLower(name);
    Includes(lower, "jaw") || Includes(lower, "mouth") || Includes(lower, "mandible")
  }

  predicate IsJawBone(n: Node)
  {
    n.kind == Bone && IsJawName(n.name)
  }

  /**
   * The visit's jaw step over the tree: the node is tested first, then its
   * children's subtrees in order, each match replacing the target found so far.
   */
  function FindJaw(n: Node, found: Option<Node>): Option<Node>
    decreases n, 1
  {
    FindJawAll(n.children, if IsJawBone(n) then Some(n) else found)
  }

  function FindJawAll(ns: seq<Node>, found: Option<Node>): Option<Node>
    decreases ns, 0
  {
    if |ns| == 0 then found else FindJawAll(ns[1..], FindJaw(ns[0], found))
  }

  /** The same overwriting scan, over an already flattened visit order. */
  function Overwrite(s: seq<Node>, found: Option<Node>): Option<Node>
  {
    if |s| == 0 then found else Overwrite(s[1..], if IsJawBone(s[0]) then Some(s[0]) else found)
  }

  /** Position `i` holds a jaw bone and no later position does. */
  predicate IsLastMatchAt(s: seq<Node>, i: int)
  {
    0 <= i < |s| && IsJawBone(s[i]) && forall j :: i < j < |s| ==> !IsJawBone(s[j])
  }

  /**
   * Reference definition of the jaw target: searching from the END of the
   * visit order, the first jaw bone met; `None` when there is none.
   */
  function LastJaw(s: seq<Node>): (r: Option<Node>)
    ensures r.None? <==> forall i :: 0 <= i < |s| ==> !IsJawBone(s[i])
    ensures r.Some? ==> exists i :: IsLastMatchAt(s, i) && s[i] == r.value
  {
    if |s| == 0 then None
    else if IsJawBone(s[|s| - 1]) then
      assert IsLastMatchAt(s, |s| - 1);
      Some(s[|s| - 1])
    else
      var r := LastJaw(s[..|s| - 1]);
      LastMatchSurvivesNonMatch(s);
      r
  }

  /** Appending a node that is not a jaw bone keeps every last match and every absence of a match. */
  lemma LastMatchSurvivesNonMatch(s: seq<Node>)
    requires |s| > 0 && !IsJawBone(s[|s| - 1])
    ensures forall i :: IsLastMatchAt(s[..|s| - 1], i) ==> IsLastMatchAt(s, i) && s[..|s| - 1][i] == s[i]
    ensures forall i :: 0 <= i < |s| - 1 ==> s[..|s| - 1][i] == s[i]
    ensures (forall i :: 0 <= i < |s| - 1 ==> !IsJawBone(s[i])) <==> (forall i :: 0 <= i < |s| ==> !IsJawBone(s[i]))
  {
  }

  lemma {:induction false} OverwriteAppend(a: seq<Node>, b: seq<Node>, found: Option<Node>)
    ensures Overwrite(a + b, found) == Overwrite(b, Overwrite(a, found))
  {
    if |a| > 0 {
      assert (a + b)[1..] == a[1..] + b;
      OverwriteAppend(a[1..], b, if IsJawBone(a[0]) then Some(a[0]) else found);
    } else {
      assert a + b == b;
    }
  }

  /** The overwriting scan ends on the last jaw bone of the sequence, or keeps what it started with. */
  lemma {:induction false} OverwriteKeepsLast(s: seq<Node>, found: Option<Node>)
    ensures Overwrite(s, found) == (if LastJaw(s).Some? then LastJaw(s) else found)
    decreases |s|
  {
    if |s| > 0 {
      var init := s[..|s| - 1];
      var last := s[|s| - 1];
      assert s == init + [last];
      OverwriteAppend(init, [last], found);
      OverwriteKeepsLast(init, found);
    }
  }

  /** Walking the tree is the same as the overwriting scan of its pre-order. */
  lemma {:induction false} FindJawIsPreOrderScan(n: Node, found: Option<Node>)
    ensures FindJaw(n, found) == Overwrite(PreOrder(n), found)
    decreases n, 1
  {
    var f' := if IsJawBone(n) then Some(n) else found;
    FindJawAllIsScan(n.children, f');
    assert PreOrder(n)[1..] == PreOrderAll(n.children);
  }

  lemma {:induction false} FindJawAllIsScan(ns: seq<Node>, found: Option<Node>)
    ensures FindJawAll(ns, found) == Overwrite(PreOrderAll(ns), found)
    decreases ns, 0
  {
    if |ns| > 0 {
      FindJawIsPreOrderScan(ns[0], found);
      FindJawAllIsScan(ns[1..], FindJaw(ns[0], found));
      OverwriteAppend(PreOrder(ns[0]), PreOrderAll(ns[1..]), found);
    }
  }

  /**
   * The jaw target after a visit that starts from `found`: the bone visited
   * LAST among those whose lower-cased name contains one of the three
   * substrings; when no bone matches, the target is left as it was.
   */
  lemma JawIsLastMatch(root: Node, found: Option<Node>)
    ensures (forall i :: 0 <= i < |PreOrder(root)| ==> !IsJawBone(PreOrder(root)[i])) ==> FindJaw(root, found) == found
    ensures FindJaw(root, found) == (if LastJaw(PreOrder(root)).Some? then LastJaw(PreOrder(root)) else found)
    ensures FindJaw(root, found) != found ==>
      FindJaw(root, found).Some? && exists i :: IsLastMatchAt(PreOrder(root), i) && PreOrder(root)[i] == FindJaw(root, found).value
  {
    FindJawIsPreOrderScan(root, found);
    OverwriteKeepsLast(PreOrder(root), found);
  }

  /** The shadow step changes no kind and no name, so it cannot change whether a jaw is found, nor its name. */
  lemma ShadingKeepsJaw(root: Node)
    ensures FindJaw(ShadeMeshes(root), None).Some? <==> FindJaw(root, None).Some?
    ensures FindJaw(root, None).Some? ==> FindJaw(ShadeMeshes(root), None).value.name == FindJaw(root, None).value.name
  {
    ShadowStep(root);
    var a := PreOrder(root);
    var b := PreOrder(ShadeMeshes(root));
    assert forall i :: 0 <= i < |a| ==> IsJawBone(a[i]) == IsJawBone(b[i]);
    ScanSameNames(a, b);
    FindJawIsPreOrderScan(root, None);
    FindJawIsPreOrderScan(ShadeMeshes(root), None);
    OverwriteKeepsLast(a, None);
    OverwriteKeepsLast(b, None);
  }

  /** Two visit orders that agree on kinds and names agree on which position holds the last jaw bone. */
  lemma {:induction false} ScanSameNames(a: seq<Node>, b: seq<Node>)
    requires |a| == |b|
    requires forall i :: 0 <= i < |a| ==> a[i].kind == b[i].kind && a[i].name == b[i].name
    ensures LastJaw(a).Some? <==> LastJaw(b).Some?
    ensures LastJaw(a).Some? ==> LastJaw(a).value.name == LastJaw(b).value.name
    decreases |a|
  {
    if |a| > 0 {
      var k := |a| - 1;
      assert IsJawBone(a[k]) == IsJawBone(b[k]);
      if !IsJawBone(a[k]) {
        ScanSameNames(a[..k], b[..k]);
      }
    }
  }

  /** Case does not matter: "JawRoot" and "L_MANDIBLE" both name a jaw bone, "Head" does not. */
  lemma MatchIgnoresCase()
    ensures IsJawName("JawRoot")
    ensures IsJawName("L_MANDIBLE")
    ensures !IsJawName("Head")
  {
    assert ToLower("JawRoot") == "jawroot";
    assert OccursAt("jawroot", "jaw", 0);
    assert ToLower("L_MANDIBLE") == "l_mandible";
    assert "l_mandible"[2..10] == "mandible";
    assert OccursAt("l_mandible", "mandible", 2);
    assert ToLower("Head") == "head";
    assert "head"[1..] == "ead" && "head"[..3] == "hea" && "hea"[0] != "jaw"[0];
    assert "ead"[1..] == "ad" && "ead"[..3] == "ead" && "ead"[0] != "jaw"[0];
    assert !Includes("ad", "jaw");
    assert !Includes("ead", "jaw");
    assert !Includes("head", "jaw");
  }

  /** A name and its upper-cased spelling are either both jaw names or neither. */
  lemma UpperCaseSameMatch(name: string)
    ensures IsJawName(ToUpper(name)) <==> IsJawName(name)
  {
    LowerForgetsCase(name);
  }
}

=== FILE: SpeechComponent.dfy ===
/**
 * The speech button component: the same utterance handlers as the provider,
 * but instead of holding the openness it reports to three callbacks
 * (`onSpeechStart`, `onSpeechData(volume)`, `onSpeechEnd`), and it keeps
 * its own `isSpeaking`, which disables its "Say Hi" button.
 */
module SpeechComponent {
  import opened SpeechLifecycle

  datatype Component = Component(isSpeaking: bool, utterances: seq<Utterance>)

  /** A callback the component invokes on its parent. */
  datatype Callback = SpeechStart | SpeechData(volume: real) | SpeechEnd

  const Initial := Component(false, [])

  /** The text the button speaks. */
  const Greeting := "Hi there!"

  /**
   * A backend or interval event: `onstart` sets `isSpeaking` and calls
   * `onSpeechStart` once; a tick passes a volume in [0, 0.8) to
   * `onSpeechData`; `onend` and `onerror` clear the interval, set
   * `isSpeaking` false and call `onSpeechEnd`.
   */
  function Notify(c: Component, e: Event): (r: (Component, seq<Callback>))
    requires WellFormed(c.utterances)
    ensures WellFormed(r.0.utterances) && |r.0.utterances| == |c.utterances|
    ensures r.0.utterances == Advance(c.utterances, e)
    ensures React(c.utterances, e).Began? ==> r.0.isSpeaking && r.1 == [SpeechStart]
    ensures React(c.utterances, e).Sample? ==> r.0.isSpeaking == c.isSpeaking && |r.1| == 1 && r.1[0].SpeechData?
                                               && 0.0 <= r.1[0].volume < 0.8
                                               && r.1[0].volume == React(c.utterances, e).openness
    ensures React(c.utterances, e).Stopped? ==> !r.0.isSpeaking && r.1 == [SpeechEnd] && !r.0.utterances[e.u].ticking
    ensures React(c.utterances, e).Silent? ==> r.0.isSpeaking == c.isSpeaking && r.1 == []
  {
    var us := Advance(c.utterances, e);
    match React(c.utterances, e)
    case Silent => (Component(c.isSpeaking, us), [])
    case Began => (Component(true, us), [SpeechStart])
    case Sample(v) => (Component(c.isSpeaking, us), [SpeechData(v)])
    case Stopped => (Component(false, us), [SpeechEnd])
  }

  /** `onend` and `onerror` have the same body, so the two events are indistinguishable. */
  lemma EndLikeError(c: Component, i: nat)
    requires WellFormed(c.utterances)
    ensures Notify(c, End(i)) == Notify(c, Error(i))
  {
  }

  /** The button is disabled exactly while the component is speaking. */
  function ButtonDisabled(c: Component): bool
  {
    c.isSpeaking
  }

  /**
   * A click on the button: a disabled button dispatches nothing; otherwise
   * `speak("Hi there!")` runs, which with a backend cancels and queues, and
   * without one only logs. No callback fires and `isSpeaking` is unchanged
   * either way.
   */
  function Click(c: Component, supported: bool, voices: seq<Voice>): (r: (Component, seq<Call>))
    requires WellFormed(c.utterances)
    ensures WellFormed(r.0.utterances)
    ensures r.0.isSpeaking == c.isSpeaking
    ensures c.isSpeaking ==> r == (c, [])
    ensures !c.isSpeaking && !supported ==> r == (c, [LogUnsupported(UnsupportedMessage)])
    ensures !c.isSpeaking && supported ==> |r.0.utterances| == |c.utterances| + 1
                                            && r.0.utterances[|c.utterances|].text == Greeting
                                            && r.1 == SpeakCalls(true, Greeting, voices)
    ensures !c.isSpeaking && supported ==> r.0.utterances == Speak(c.utterances, Greeting, voices)
  {
    if ButtonDisabled(c) then (c, [])
    else if supported then (c.(utterances := Speak(c.utterances, Greeting, voices)), SpeakCalls(true, Greeting, voices))
    else (c, SpeakCalls(false, Greeting, voices))
  }

  /** An input to the component: a click, or a backend/interval event. */
  datatype Input = Press(voices: seq<Voice>) | Deliver(e: Event)

  function Step(c: Component, supported: bool, input: Input): (r: (Component, seq<Callback>))
    requires WellFormed(c.utterances)
    ensures WellFormed(r.0.utterances) && |r.0.utterances| >= |c.utterances|
  {
    match input
    case Press(voices) => (Click(c, supported, voices).0, [])
    case Deliver(e) => Notify(c, e)
  }

  /** The component after a sequence of inputs, with every callback it fired, in order. */
  function Run(c: Component, supported: bool, inputs: seq<Input>): (r: (Component, seq<Callback>))
    requires WellFormed(c.utterances)
    ensures WellFormed(r.0.utterances) && |r.0.utterances| >= |c.utterances|
    decreases |inputs|
  {
    if |inputs| == 0 then (c, [])
    else
      var (c1, out1) := Step(c, supported, inputs[0]);
      var (c2, out2) := Run(c1, supported, inputs[1..]);
      (c2, out1 + out2)
  }

  /** Without a backend nothing is ever queued, so no input fires a callback or changes `isSpeaking`. */
  lemma {:induction false} UnsupportedIsSilent(c: Component, inputs: seq<Input>)
    requires WellFormed(c.utterances) && |c.utterances| == 0
    ensures Run(c, false, inputs) == (c, [])
    decreases |inputs|
  {
    if |inputs| > 0 {
      var none: seq<Callback> := [];
      assert Step(c, false, inputs[0]) == (c, none);
      UnsupportedIsSilent(c, inputs[1..]);
      assert none + none == none;
    }
  }

  /**
   * After an utterance's end or error, whatever inputs follow, a tick of its
   * interval can never reach `onSpeechData`: the interval is cleared for good.
   */
  lemma {:induction false} NoDataAfterEnd(c: Component, supported: bool, i: nat, inputs: seq<Input>, draw: real)
    requires WellFormed(c.utterances) && i < |c.utterances| && c.utterances[i].status == Done
    ensures i < |Run(c, supported, inputs).0.utterances|
    ensures Finished(Run(c, supported, inputs).0.utterances[i])
    ensures Notify(Run(c, supported, inputs).0, Tick(i, draw)).1 == []
    decreases |inputs|
  {
    DoneIsFinished(c.utterances, i);
    if |inputs| > 0 {
      var c1 := Step(c, supported, inputs[0]).0;
      match inputs[0] {
        case Press(voices) =>
          FinishedIsFinal(c.utterances, i, Start(0), Greeting, voices);
        case Deliver(e) =>
          FinishedIsFinal(c.utterances, i, e, "", []);
      }
      NoDataAfterEnd(c1, supported, i, inputs[1..], draw);
    }
  }
}

=== FILE: SpeechContext.dfy ===
/**
 * The speech provider: `isSpeaking` and `mouthOpenness` as React state,
 * the `speak` command, and the `useSpeech` guard.
 */
module SpeechContext {
  import opened Wrappers
  import opened SpeechLifecycle

  /** The provider's state together with the utterances it has handed to the backend. */
  datatype Provider = Provider(isSpeaking: bool, mouthOpenness: real, utterances: seq<Utterance>)

  /** An input to the provider: a `speak(text)` call, or a backend/interval event. */
  datatype Input = SpeakText(text: string, voices: seq<Voice>) | Notify(e: Event)

  /** Not speaking, mouth closed, nothing queued. */
  const Initial := Provider(false, 0.0, [])

  const OutsideProviderMessage := "useSpeech must be used within a SpeechProvider"

  /** What every reachable provider state satisfies. */
  predicate Valid(p: Provider)
  {
    && WellFormed(p.utterances)
    && 0.0 <= p.mouthOpenness < MaxOpenness
  }

  /**
   * `speak(text)`: with a backend, the utterance queue gains the new
   * utterance after everything older is cancelled; without one, only an
   * error is logged. Neither path touches `isSpeaking` or `mouthOpenness`.
   */
  function SpeakStep(p: Provider, supported: bool, text: string, voices: seq<Voice>): (r: (Provider, seq<Call>))
    requires Valid(p)
    ensures Valid(r.0)
    ensures r.0.isSpeaking == p.isSpeaking && r.0.mouthOpenness == p.mouthOpenness
    ensures !supported ==> r.0 == p && r.1 == [LogUnsupported(UnsupportedMessage)]
    ensures supported ==> |r.1| == 2 && r.1[0] == CancelAll && r.1[1].Enqueue? && |r.0.utterances| == |p.utterances| + 1
    ensures supported ==> forall i :: 0 <= i < |p.utterances| && p.utterances[i].status != Done ==> r.0.utterances[i].cancelled
    ensures supported ==> r.0.utterances == Speak(p.utterances, text, voices) && r.1 == SpeakCalls(true, text, voices)
  {
    var calls := SpeakCalls(supported, text, voices);
    if supported then (p.(utterances := Speak(p.utterances, text, voices)), calls) else (p, calls)
  }

  /**
   * A backend or interval event: `onstart` sets `isSpeaking`; a tick sets
   * the openness to a value in [0, 0.8); `onend` and `onerror` (once
   * installed) clear the interval, set `isSpeaking` false and the openness
   * to exactly 0. An end or error before the start finds no handler.
   */
  function NotifyStep(p: Provider, e: Event): (r: Provider)
    requires Valid(p)
    ensures Valid(r)
    ensures |r.utterances| == |p.utterances|
    ensures r.utterances == Advance(p.utterances, e)
    ensures React(p.utterances, e).Silent? ==> r.isSpeaking == p.isSpeaking && r.mouthOpenness == p.mouthOpenness
    ensures React(p.utterances, e).Began? ==> r.isSpeaking && r.utterances[e.u].ticking && r.mouthOpenness == p.mouthOpenness
    ensures React(p.utterances, e).Sample? ==> r.isSpeaking == p.isSpeaking
    ensures React(p.utterances, e).Sample? ==> r.mouthOpenness == React(p.utterances, e).openness
    ensures React(p.utterances, e).Stopped? ==> !r.isSpeaking && r.mouthOpenness == 0.0 && !r.utterances[e.u].ticking
    ensures (e.End? || e.Error?) && e.u < |p.utterances| && !p.utterances[e.u].handlers ==>
              r.isSpeaking == p.isSpeaking && r.mouthOpenness == p.mouthOpenness
  {
    var us := Advance(p.utterances, e);
    match React(p.utterances, e)
    case Silent => p.(utterances := us)
    case Began => Provider(true, p.mouthOpenness, us)
    case Sample(v) => Provider(p.isSpeaking, v, us)
    case Stopped => Provider(false, 0.0, us)
  }

  function Step(p: Provider, supported: bool, input: Input): (r: Provider)
    requires Valid(p)
    ensures Valid(r)
    ensures |r.utterances| >= |p.utterances|
  {
    match input
    case SpeakText(text, voices) => SpeakStep(p, supported, text, voices).0
    case Notify(e) => NotifyStep(p, e)
  }

  /** The provider after a whole sequence of inputs. */
  function Run(p: Provider, supported: bool, inputs: seq<Input>): (r: Provider)
    requires Valid(p)
    ensures Valid(r)
    decreases |inputs|
  {
    if |inputs| == 0 then p else Run(Step(p, supported, inputs[0]), supported, inputs[1..])
  }

  /** The starting state is valid, so every reachable openness lies in [0, 0.8). */
  lemma ReachableOpenness(supported: bool, inputs: seq<Input>)
    ensures Valid(Initial)
    ensures 0.0 <= Run(Initial, supported, inputs).mouthOpenness < 0.8
  {
  }

  /** Without a backend no input changes the provider's state: nothing is queued, so no event is ever delivered. */
  lemma {:induction false} UnsupportedIsInert(p: Provider, inputs: seq<Input>)
    requires Valid(p) && |p.utterances| == 0
    ensures Run(p, false, inputs) == p
    decreases |inputs|
  {
    if |inputs| > 0 {
      assert Step(p, false, inputs[0]) == p;
      UnsupportedIsInert(p, inputs[1..]);
    }
  }

  /** After an utterance's end or error is handled, nothing that follows can make it tick again. */
  lemma {:induction false} NoTickAfterStop(p: Provider, supported: bool, i: nat, inputs: seq<Input>, draw: real)
    requires Valid(p) && i < |p.utterances| && p.utterances[i].status == Done
    ensures i < |Run(p, supported, inputs).utterances|
    ensures Finished(Run(p, supported, inputs).utterances[i])
    ensures NotifyStep(Run(p, supported, inputs), Tick(i, draw)) == Run(p, supported, inputs)
    decreases |inputs|
  {
    DoneIsFinished(p.utterances, i);
    if |inputs| > 0 {
      var q := Step(p, supported, inputs[0]);
      match inputs[0] {
        case SpeakText(text, voices) =>
          FinishedIsFinal(p.utterances, i, Start(0), text, voices);
        case Notify(e) =>
          FinishedIsFinal(p.utterances, i, e, "", []);
      }
      NoTickAfterStop(q, supported, i, inputs[1..], draw);
    }
  }

  /** `useSpeech()`: the provider's value inside a provider; outside, the hook throws. */
  function UseSpeech(context: Option<Provider>): (r: Result<Provider>)
    ensures r.Ok? <==> context.Some?
    ensures r.Ok? ==> r.value == context.value
    ensures r.Err? ==> r.message == OutsideProviderMessage
  {
    match context
    case Some(p) => Ok(p)
    case None => Err(OutsideProviderMessage)
  }
}

=== FILE: SpeechLifecycle.dfy ===
/**
 * The speech-synthesis side shared by the speech provider and the speech
 * button component: the utterances queued with the backend, the handlers
 * each utterance carries, and which handler body a backend event runs.
 *
 * Each call of `speak` builds a new utterance whose `onstart` handler, when
 * it runs, starts a 100 ms interval and only then installs `onend` and
 * `onerror`, both of which clear that interval. Timers and the random draw
 * are events here: a `Tick` carries the `Math.random()` draw.
 */
module SpeechLifecycle {
  import opened Wrappers
  import opened TextMatch

  /** Period of the mouth interval, in milliseconds. */
  const TickMs := 100

  /** A tick sets the mouth openness to the draw scaled by this factor. */
  const MaxOpenness: real := 0.8

  datatype Voice = Voice(name: string, lang: string)

  /** Where the backend is with an utterance. */
  datatype Status = Queued | Speaking | Done

  /**
   * One utterance: its text and voice, its backend status, whether `cancel`
   * dropped it, whether `onstart` has run (and so installed `onend` and
   * `onerror`), and whether its interval is live.
   */
  datatype Utterance = Utterance(text: string, voice: Option<Voice>, status: Status, cancelled: bool, handlers: bool, ticking: bool)

  /** A notification from the backend or from an utterance's interval, naming the utterance by its position. */
  datatype Event = Start(u: nat) | Tick(u: nat, draw: real) | End(u: nat) | Error(u: nat)

  /** Which handler body an event runs. */
  datatype Reaction = Silent | Began | Sample(openness: real) | Stopped

  /** A call into the speech backend. */
  datatype Call = CancelAll | Enqueue(text: string, voice: Option<Voice>) | LogUnsupported(message: string)

  const UnsupportedMessage := "Speech synthesis not supported in this browser"

  predicate IsEnglish(v: Voice)
  {
    Includes(v.lang, "en")
  }

  /** `voices.find(voice => voice.lang.includes('en'))` */
  function PickVoice(voices: seq<Voice>): (r: Option<Voice>)
    ensures r.None? <==> forall i :: 0 <= i < |voices| ==> !IsEnglish(voices[i])
    ensures r.Some? ==> exists i :: 0 <= i < |voices| && voices[i] == r.value && IsEnglish(r.value)
                                    && forall j :: 0 <= j < i ==> !IsEnglish(voices[j])
  {
    if |voices| == 0 then None
    else if IsEnglish(voices[0]) then Some(voices[0])
    else
      var r := PickVoice(voices[1..]);
      assert forall i :: 1 <= i < |voices| ==> voices[1..][i - 1] == voices[i];
      r
  }

  /** Handlers are installed only by `onstart`, and a live interval belongs to an utterance being spoken. */
  predicate WellFormed(us: seq<Utterance>)
  {
    forall i :: 0 <= i < |us| ==>
      && (us[i].ticking ==> us[i].handlers && us[i].status == Speaking)
      && (us[i].handlers ==> us[i].status != Queued)
  }

  /**
   * Whether the backend (or the interval) can deliver the event at all: a
   * start comes once, for a queued utterance that was not cancelled; a tick
   * only from a live interval, with a draw in [0, 1) like `Math.random()`;
   * an end or error once, for an utterance that is not done.
   */
  predicate Deliverable(us: seq<Utterance>, e: Event)
  {
    e.u < |us| &&
    match e
    case Start(i) => us[i].status == Queued && !us[i].cancelled
    case Tick(i, d) => us[i].ticking && 0.0 <= d < 1.0
    case End(i) => us[i].status != Done
    case Error(i) => us[i].status != Done
  }

  /**
   * The handler body the event runs: `onstart`; the interval callback with
   * `draw * 0.8`; `onend`/`onerror` only if `onstart` installed them.
   */
  function React(us: seq<Utterance>, e: Event): (r: Reaction)
    ensures r != Silent ==> Deliverable(us, e)
    ensures r.Sample? ==> 0.0 <= r.openness < MaxOpenness
    ensures r.Stopped? ==> (e.End? || e.Error?) && e.u < |us| && us[e.u].handlers
    ensures r.Began? ==> e.Start?
    ensures (e.End? || e.Error?) && e.u < |us| && !us[e.u].handlers ==> r == Silent
    ensures Deliverable(us, e) && e.Start? ==> r == Began
    ensures Deliverable(us, e) && e.Tick? ==> r == Sample(e.draw * MaxOpenness)
    ensures Deliverable(us, e) && (e.End? || e.Error?) && us[e.u].handlers ==> r == Stopped
  {
    if !Deliverable(us, e) then Silent
    else match e
      case Start(_) => Began
      case Tick(_, d) => Sample(d * MaxOpenness)
      case End(i) => if us[i].handlers then Stopped else Silent
      case Error(i) => if us[i].handlers then Stopped else Silent
  }

  /** The backend and handler bookkeeping an event causes. */
  function Advance(us: seq<Utterance>, e: Event): (r: seq<Utterance>)
    requires WellFormed(us)
    ensures WellFormed(r)
    ensures |r| == |us|
    ensures forall i :: 0 <= i < |us| && i != e.u ==> r[i] == us[i]
    ensures Deliverable(us, e) && e.Start? ==> r[e.u].handlers && r[e.u].ticking
    ensures Deliverable(us, e) && (e.End? || e.Error?) ==> r[e.u].status == Done && !r[e.u].ticking
    ensures !Deliverable(us, e) || e.Tick? ==> r == us
  {
    if !Deliverable(us, e) then us
    else match e
      case Start(i) => us[i := us[i].(status := Speaking, handlers := true, ticking := true)]
      case Tick(_, _) => us
      case End(i) => us[i := us[i].(status := Done, ticking := false)]
      case Error(i) => us[i := us[i].(status := Done, ticking := false)]
  }

  /**
   * `speechSynthesis.cancel()` then `speechSynthesis.speak(utterance)`: every
   * utterance not yet done is dropped by the backend, and the new one is
   * queued at the end. Cancelling clears no interval: a live interval keeps
   * ticking until its utterance's end or error arrives.
   */
  function Speak(us: seq<Utterance>, text: string, voices: seq<Voice>): (r: seq<Utterance>)
    requires WellFormed(us)
    ensures WellFormed(r)
    ensures |r| == |us| + 1
    ensures r[|us|] == Utterance(text, PickVoice(voices), Queued, false, false, false)
    ensures forall i :: 0 <= i < |us| ==> r[i].cancelled == (us[i].cancelled || us[i].status != Done)
    ensures forall i :: 0 <= i < |us| ==> r[i].(cancelled := us[i].cancelled) == us[i]
  {
    var dropped := seq(|us|, i requires 0 <= i < |us| => us[i].(cancelled := us[i].cancelled || us[i].status != Done));
    dropped + [Utterance(text, PickVoice(voices), Queued, false, false, false)]
  }

  /** The backend calls `speak` makes, in order: cancel everything, then queue the new utterance. */
  function SpeakCalls(supported: bool, text: string, voices: seq<Voice>): (r: seq<Call>)
    ensures supported ==> |r| == 2 && r[0] == CancelAll && r[1].Enqueue? && r[1].text == text
    ensures !supported ==> r == [LogUnsupported(UnsupportedMessage)]
  {
    if supported then [CancelAll, Enqueue(text, PickVoice(voices))] else [LogUnsupported(UnsupportedMessage)]
  }

  /** An utterance whose end or error has been handled; its interval can never tick again. */
  predicate Finished(u: Utterance)
  {
    u.status == Done && !u.ticking
  }

  /** Once finished, an utterance stays finished through any event or `speak`, and never ticks. */
  lemma FinishedIsFinal(us: seq<Utterance>, i: nat, e: Event, text: string, voices: seq<Voice>)
    requires WellFormed(us) && i < |us| && Finished(us[i])
    ensures Finished(Advance(us, e)[i])
    ensures Finished(Speak(us, text, voices)[i])
    ensures e.Tick? && e.u == i ==> React(us, e) == Silent
  {
  }

  /** In a well-formed state a done utterance has no live interval. */
  lemma DoneIsFinished(us: seq<Utterance>, i: nat)
    requires WellFormed(us) && i < |us| && us[i].status == Done
    ensures Finished(us[i])
  {
  }
}

=== FILE: TalkingHead.dfy ===
/**
 * The procedural talking head: a jaw mesh whose height follows the mouth
 * openness copied from the speech provider, two eyelids that a 5000 ms
 * interval blinks (when its random draw exceeds 0.2) and a 150 ms timeout
 * hides again, a frame loop, and the unmount teardown.
 */
module TalkingHead {
  import opened Wrappers
  import SpeechContext
  import AvatarAnimation

  /** The jaw mesh's rest height. */
  const JawRestY: real := -1.2

  /** How far the jaw drops per unit of openness. */
  const JawDrop: real := 0.3

  /** Period of the blink interval, in milliseconds. */
  const BlinkPeriodMs := 5000

  /** How long the eyelids stay shown, in milliseconds. */
  const BlinkHoldMs := 150

  /** A blink happens only when the interval's draw exceeds this. */
  const BlinkThreshold: real := 0.2

  /**
   * The component's refs and the browser resources it holds: the jaw's
   * `position.y` and each eyelid's `visible` (absent while the ref is null),
   * the openness ref, the hide timeouts not yet run, whether the blink
   * interval and the resize listener are installed, the recorded frame
   * handle and the pending frame callbacks, renders so far, and whether the
   * canvas is attached.
   */
  datatype Head = Head(
    jawY: Option<real>,
    leftLid: Option<bool>,
    rightLid: Option<bool>,
    openness: real,
    pendingHides: nat,
    blinkInterval: bool,
    resizeListener: bool,
    frameId: nat,
    pending: set<nat>,
    renders: nat,
    canvasAttached: bool)

  /** Before mounting: every ref null, nothing installed. */
  const Unmounted := Head(None, None, None, 0.0, 0, false, false, 0, {}, 0, false)

  /** The jaw height for a given openness. */
  function JawY(openness: real): (y: real)
    ensures openness == 0.0 ==> y == -1.2
    ensures openness > 0.0 ==> y < -1.2
  {
    JawRestY - openness * JawDrop
  }

  /** The wider the mouth, the strictly lower the jaw. */
  lemma JawYStrictlyDecreasing(a: real, b: real)
    requires a < b
    ensures JawY(b) < JawY(a)
  {
  }

  /**
   * One call of `animate`: the jaw, when present, is placed from the
   * openness ref; the scene renders once; the next frame is requested.
   */
  function Animate(h: Head, next: AvatarAnimation.FrameHandle): (r: Head)
    ensures h.jawY.Some? ==> r.jawY == Some(JawY(h.openness))
    ensures h.jawY.None? ==> r.jawY.None?
    ensures r.renders == h.renders + 1
    ensures r.frameId == next && r.pending == h.pending + {next}
    ensures r.leftLid == h.leftLid && r.rightLid == h.rightLid
  {
    var jaw := if h.jawY.Some? then Some(JawY(h.openness)) else None;
    h.(jawY := jaw, renders := h.renders + 1, frameId := next, pending := h.pending + {next})
  }

  /**
   * The mount effect: with no canvas element it returns at once; otherwise
   * the scene is built and the canvas attached, the head is created with
   * the jaw at rest and both eyelids hidden, the loop starts, and the blink
   * interval and resize listener are installed.
   */
  function Mount(h: Head, hasCanvas: bool, next: AvatarAnimation.FrameHandle): (r: Head)
    ensures !hasCanvas ==> r == h
    ensures hasCanvas ==> r.leftLid == Some(false) && r.rightLid == Some(false)
    ensures hasCanvas ==> r.blinkInterval && r.resizeListener && r.canvasAttached && r.pending == h.pending + {next}
    ensures hasCanvas ==> r.jawY == Some(JawY(h.openness))
    ensures hasCanvas ==> r.frameId == next
  {
    if !hasCanvas then h
    else
      var created := h.(canvasAttached := true, jawY := Some(JawRestY), leftLid := Some(false), rightLid := Some(false));
      Animate(created, next).(blinkInterval := true, resizeListener := true)
  }

  /** The effect that copies the provider's openness into the ref the loop reads. */
  function SyncOpenness(h: Head, mouthOpenness: real): (r: Head)
    ensures r.openness == mouthOpenness
    ensures r.(openness := h.openness) == h
  {
    h.(openness := mouthOpenness)
  }

  /** `blink()`: a no-op unless both eyelids exist; then both are shown and a hide is scheduled. */
  function Blink(h: Head): (r: Head)
    ensures h.leftLid.None? || h.rightLid.None? ==> r == h
    ensures h.leftLid.Some? && h.rightLid.Some? ==>
              r.leftLid == Some(true) && r.rightLid == Some(true) && r.pendingHides == h.pendingHides + 1
  {
    if h.leftLid.None? || h.rightLid.None? then h
    else h.(leftLid := Some(true), rightLid := Some(true), pendingHides := h.pendingHides + 1)
  }

  /** The blink interval firing with its random draw: it blinks only while installed and when the draw exceeds 0.2. */
  function BlinkTimer(h: Head, draw: real): (r: Head)
    ensures !h.blinkInterval || draw <= 0.2 ==> r == h
    ensures h.blinkInterval && draw > 0.2 ==> r == Blink(h)
  {
    if h.blinkInterval && draw > BlinkThreshold then Blink(h) else h
  }

  /** A scheduled hide running: if both eyelids exist, both are hidden. */
  function HideLids(h: Head): (r: Head)
    ensures h.pendingHides == 0 ==> r == h
    ensures h.pendingHides > 0 ==> r.pendingHides == h.pendingHides - 1
    ensures h.pendingHides > 0 && h.leftLid.Some? && h.rightLid.Some? ==> r.leftLid == Some(false) && r.rightLid == Some(false)
  {
    if h.pendingHides == 0 then h
    else
      var fired := h.(pendingHides := h.pendingHides - 1);
      if fired.leftLid.Some? && fired.rightLid.Some? then fired.(leftLid := Some(false), rightLid := Some(false)) else fired
  }

  /** The browser running a pending frame callback. */
  function OnFrame(h: Head, id: nat, next: AvatarAnimation.FrameHandle): (r: Head)
    ensures id !in h.pending ==> r == h
    ensures id in h.pending ==> r.renders == h.renders + 1 && r.frameId == next
    ensures id in h.pending ==> r.pending == h.pending - {id} + {next}
  {
    if id in h.pending then Animate(h.(pending := h.pending - {id}), next) else h
  }

  /**
   * The unmount teardown: the resize listener is removed, the blink interval
   * cleared, the recorded frame cancelled (when one was recorded) and the
   * canvas detached. A hide timeout already scheduled is not cancelled.
   */
  function Teardown(h: Head): (r: Head)
    ensures !r.resizeListener && !r.blinkInterval && !r.canvasAttached
    ensures h.frameId != 0 ==> h.frameId !in r.pending
    ensures r.pendingHides == h.pendingHides && r.leftLid == h.leftLid && r.rightLid == h.rightLid
  {
    var cancelled := if h.frameId != 0 then h.pending - {h.frameId} else h.pending;
    h.(resizeListener := false, blinkInterval := false, pending := cancelled, canvasAttached := false)
  }

  /**
   * In the model, tearing down twice changes nothing more than tearing down
   * once; detaching the canvas is modelled as always succeeding.
   */
  lemma TeardownIdempotent(h: Head)
    ensures Teardown(Teardown(h)) == Teardown(h)
  {
  }

  /** What can happen to a mounted head, in any order. */
  datatype Input = Frame(id: nat, next: AvatarAnimation.FrameHandle) | BlinkFire(draw: real) | HideFire | Sync(mouthOpenness: real) | Unmount

  function Step(h: Head, input: Input): Head
  {
    match input
    case Frame(id, next) => OnFrame(h, id, next)
    case BlinkFire(draw) => BlinkTimer(h, draw)
    case HideFire => HideLids(h)
    case Sync(v) => SyncOpenness(h, v)
    case Unmount => Teardown(h)
  }

  function Run(h: Head, inputs: seq<Input>): Head
    decreases |inputs|
  {
    if |inputs| == 0 then h else Run(Step(h, inputs[0]), inputs[1..])
  }

  /**
   * At most the recorded frame is pending, and no pending handle is 0: the
   * loop never has a callback the teardown would miss.
   */
  predicate OneFrameAtMost(h: Head)
  {
    h.pending <= {h.frameId} && 0 !in h.pending
  }

  /** Every frame, blink, hide, sync and teardown keeps at most the recorded frame pending. */
  lemma {:induction false} FramesStayRecorded(h: Head, inputs: seq<Input>)
    requires OneFrameAtMost(h)
    ensures OneFrameAtMost(Run(h, inputs))
    decreases |inputs|
  {
    if |inputs| > 0 {
      var h1 := Step(h, inputs[0]);
      assert OneFrameAtMost(h1);
      FramesStayRecorded(h1, inputs[1..]);
    }
  }

  /**
   * However the head runs after mounting, its teardown leaves no frame
   * callback pending: the loop stops.
   */
  lemma TeardownStopsLoop(hasCanvas: bool, next: AvatarAnimation.FrameHandle, inputs: seq<Input>)
    ensures Teardown(Run(Mount(Unmounted, hasCanvas, next), inputs)).pending == {}
  {
    var h := Run(Mount(Unmounted, hasCanvas, next), inputs);
    FramesStayRecorded(Mount(Unmounted, hasCanvas, next), inputs);
    assert h.pending <= {h.frameId} && 0 !in h.pending;
  }

  /** The two eyelids exist together and are shown or hidden together. */
  predicate LidsTogether(h: Head)
  {
    h.leftLid == h.rightLid
  }

  /** From mounting on, whatever frames, blinks, hides, syncs and teardowns occur, the eyelids never differ. */
  lemma {:induction false} LidsStayTogether(h: Head, inputs: seq<Input>)
    requires LidsTogether(h)
    ensures LidsTogether(Run(h, inputs))
    decreases |inputs|
  {
    if |inputs| > 0 {
      LidsStayTogether(Step(h, inputs[0]), inputs[1..]);
    }
  }

  /** A freshly mounted head has both eyelids hidden, and they stay paired from then on. */
  lemma MountedLids(hasCanvas: bool, next: AvatarAnimation.FrameHandle, inputs: seq<Input>)
    ensures hasCanvas ==> Mount(Unmounted, hasCanvas, next).leftLid == Some(false)
    ensures LidsTogether(Run(Mount(Unmounted, hasCanvas, next), inputs))
  {
    LidsStayTogether(Mount(Unmounted, hasCanvas, next), inputs);
  }

  /**
   * The jaw follows the provider: after copying a valid provider's openness
   * and drawing a frame, the jaw sits at -1.2 - 0.3 * openness, which lies
   * in (-1.44, -1.2].
   */
  lemma JawFollowsProvider(h: Head, p: SpeechContext.Provider, next: AvatarAnimation.FrameHandle)
    requires h.jawY.Some? && SpeechContext.Valid(p)
    ensures Animate(SyncOpenness(h, p.mouthOpenness), next).jawY == Some(JawY(p.mouthOpenness))
    ensures -1.44 < JawY(p.mouthOpenness) <= -1.2
  {
  }
}

=== FILE: TextMatch.dfy ===
/**
 * The two string operations the avatar code relies on: `toLowerCase()`
 * (modelled on the ASCII letters) and `includes(needle)`.
 */
module TextMatch {

  /** Lower-cases an ASCII capital letter; every other character is kept. */
  function LowerChar(c: char): char
  {
    if 'A' <= c <= 'Z' then (c as int + 32) as char else c
  }

  /** Upper-cases an ASCII small letter; every other character is kept. */
  function UpperChar(c: char): char
  {
    if 'a' <= c <= 'z' then (c as int - 32) as char else c
  }

  /** `s.toLowerCase()` */
  function ToLower(s: string): string
  {
    seq(|s|, i requires 0 <= i < |s| => LowerChar(s[i]))
  }

  /** `s.toUpperCase()` */
  function ToUpper(s: string): string
  {
    seq(|s|, i requires 0 <= i < |s| => UpperChar(s[i]))
  }

  /** `needle` occurs in `hay` starting at position `i`. */
  predicate OccursAt(hay: string, needle: string, i: int)
  {
    0 <= i && i + |needle| <= |hay| && hay[i..i + |needle|] == needle
  }

  /**
   * `hay.includes(needle)`: a left-to-right scan for the first position
   * where `needle` starts. The empty needle is found in every string.
   */
  function Includes(hay: string, needle: string): (r: bool)
    ensures r <==> exists i :: OccursAt(hay, needle, i)
    decreases |hay|
  {
    if |needle| > |hay| then
      false
    else if hay[..|needle|] == needle then
      assert OccursAt(hay, needle, 0);
      true
    else
      var rest := Includes(hay[1..], needle);
      ShiftOccurrence(hay, needle);
      rest
  }

  /** An occurrence past position 0 is an occurrence in the tail, and back. */
  lemma ShiftOccurrence(hay: string, needle: string)
    requires |hay| > 0
    requires !OccursAt(hay, needle, 0)
    ensures (exists i :: OccursAt(hay, needle, i)) <==> (exists j :: OccursAt(hay[1..], needle, j))
  {
    if i :| OccursAt(hay, needle, i) {
      assert i > 0;
      assert hay[1..][i - 1..i - 1 + |needle|] == hay[i..i + |needle|];
      assert OccursAt(hay[1..], needle, i - 1);
    }
    if j :| OccursAt(hay[1..], needle, j) {
      assert hay[1..][j..j + |needle|] == hay[j + 1..j + 1 + |needle|];
      assert OccursAt(hay, needle, j + 1);
    }
  }

  /**
   * Lower-casing forgets case: a name and its upper-cased spelling lower-case
   * to the same string.
   */
  lemma LowerForgetsCase(s: string)
    ensures ToLower(ToUpper(s)) == ToLower(s)
  {
    forall i | 0 <= i < |s|
      ensures ToLower(ToUpper(s))[i] == ToLower(s)[i]
    {
      var c := s[i];
      if 'a' <= c <= 'z' {
        assert UpperChar(c) as int == c as int - 32;
      }
    }
  }
}

=== FILE: Wrappers.dfy ===
/** Nullable references and thrown errors of the avatar code, as values. */
module Wrappers {

  /** A reference that may be null (`useRef<T | null>`). */
  datatype Option<+T> = None | Some(value: T)

  /** A value, or the message of the error that would have been thrown. */
  datatype Result<+T> = Ok(value: T) | Err(message: string)
}
